=== FILE: README.md ===
# dependency-print-plugin — a Dafny model of its core

The Maven plugin has two goals. `print-dependencies` writes the project's
resolved compile-scope artifacts. `print-modules` writes the leaf modules of
a multi-module build. Both goals collect records into a `TreeSet` ordered by
(groupId, artifactId). Both render each record as one line of `:`-separated
fields.

This project models the three algorithms behind the goals:

- **The module tree walk** (`PrintModules.handleModules` and the `Module`
  constructor). Declared submodules are visited depth-first in declared
  order. A child inherits groupId and version from its resolved parent when
  its own pom omits them. Only modules without submodules are collected.
  An unreadable pom quietly ends its sibling list. A malformed pom fails the
  whole goal.
- **The dependency set** (`PrintDependencies.execute` and
  `isProjectGroupId`). All artifacts are added to the set, so the first one
  per key wins. Then every artifact whose scope is not `"compile"` is
  removed. Then artifacts are skipped by ownership (project groupId or not)
  according to two toggles. Because deduplication comes first, a
  non-compile artifact can hide a later compile-scoped one with the same key.
- **The line builder**, which both mojos repeat. A field is appended only if
  its toggle is on. A `:` goes before it only when the line so far is
  non-empty. Artifact lines may end with `" from " + url`, or with the bare
  URL when the line is empty.

Layout, one Dafny module per file:

| file | module | models |
|---|---|---|
| `wrappers.dfy` | `Wrappers` | `Option` (a Java reference that may be null) and `Result` (an exception) |
| `order.dfy` | `Order` | the comparators: `String.compareTo` on groupId, then on artifactId |
| `keyed_set.dfy` | `KeyedSet` | the `TreeSet`: a strictly sorted sequence whose `add` keeps the first element per key; `addAll`; `removeIf` |
| `line_format.dfy` | `LineFormat` | the `StringBuilder` loop and the repository-URL suffix |
| `mojo.dfy` | `Mojo` | the shared `@Parameter` toggles with their defaults, and `isProjectGroupId` |
| `print_modules.dfy` | `PrintModules` | descriptors, the walk, inheritance, and the `print-modules` goal |
| `print_dependencies.dfy` | `PrintDependencies` | artifacts, the compile/ownership filters, and the `print-dependencies` goal |

A pom read is modelled as a `Slot`: `Missing` (the pom is not readable),
`Malformed` (the reader throws) or `Present(Desc)`. `Walk` follows
`handleModules` as written, threading the set through the recursion.
`Leaves` is the pure traversal alone. `WalkIsInsertAll` proves the two agree.

The defaults of the shared toggles are `Mojo.Defaults`: printGroupId,
printArtifactId, printVersion and printRepositoryUrl are all on, and
projectGroupIds is unset
(src/main/java/me/soknight/maven/plugins/dependency/print/DependencyPrintMojo.java:30-43).
The defaults of the dependency goal are `PrintDependencies.DefaultOptions`
(src/main/java/me/soknight/maven/plugins/dependency/print/PrintDependencies.java:21-28).

The repository suffix is added whenever the repository and its URL are
non-null (PrintDependencies.java:76-78), even when the URL is empty. After a
non-empty line an empty URL therefore still adds `" from "`; after an empty
line the bare URL, possibly empty, is appended (PrintDependencies.java:79-81;
`LineFormat.WithUrl`, `PrintDependencies.ArtifactLine`).

## Model

| member | source | states |
|---|---|---|
| `Order.StrLess` | src/main/java/me/soknight/maven/plugins/dependency/print/PrintDependencies.java:33 | the string order of `compareTo`: no string is below itself, and the empty string is below every non-empty one |
| `Order.StrLessIsCompareTo` | src/main/java/me/soknight/maven/plugins/dependency/print/PrintDependencies.java:33 | string order is exactly `String.compareTo(a, b) < 0` as the JDK defines it: the first differing character is smaller in `a`, or `a` is a proper prefix of `b` |
| `Order.KeyLess` | src/main/java/me/soknight/maven/plugins/dependency/print/PrintModules.java:37 | the comparator of both sets: keys with different groupIds compare by groupId alone; keys with equal groupIds compare by artifactId |
| `Order.KeyTrichotomy` | src/main/java/me/soknight/maven/plugins/dependency/print/PrintModules.java:37 | the (groupId, artifactId) comparator is a strict total order: exactly one of less, equal, greater holds for any two keys |
| `Order.KeyLessTransitive` | src/main/java/me/soknight/maven/plugins/dependency/print/PrintModules.java:37 | the (groupId, artifactId) comparator is transitive, as `TreeSet` requires |
| `Order.StrLessTransitive` | src/main/java/me/soknight/maven/plugins/dependency/print/PrintDependencies.java:33 | lexicographic string comparison is transitive |
| `KeyedSet.Insert` | src/main/java/me/soknight/maven/plugins/dependency/print/PrintModules.java:106 | `TreeSet.add` keeps the set strictly sorted; its key set gains exactly the new key; the set is unchanged when the key is already present; otherwise the only new element is the inserted one |
| `KeyedSet.InsertAll` | src/main/java/me/soknight/maven/plugins/dependency/print/PrintDependencies.java:34 | adding a run of elements keeps the set sorted, and its keys become the old keys plus those of the run |
| `KeyedSet.InsertAllAppend` | src/main/java/me/soknight/maven/plugins/dependency/print/PrintDependencies.java:34 | adding `xs + ys` is adding `xs` and then `ys` |
| `KeyedSet.FromSeq` | src/main/java/me/soknight/maven/plugins/dependency/print/PrintDependencies.java:33-34 | a set filled from `xs` is strictly ascending by key and has exactly the keys of `xs` |
| `KeyedSet.FromSeqFirstWins` | src/main/java/me/soknight/maven/plugins/dependency/print/PrintDependencies.java:33-34 | an element is in the set built from `xs` exactly when it is the first element of `xs` with its key |
| `KeyedSet.FirstOfKeyUnique` | src/main/java/me/soknight/maven/plugins/dependency/print/PrintDependencies.java:33-34 | at most one element of a sequence is the first with a given key |
| `KeyedSet.Filter` | src/main/java/me/soknight/maven/plugins/dependency/print/PrintDependencies.java:35 | `removeIf` keeps exactly the elements that satisfy the kept-predicate, and never adds any |
| `KeyedSet.FilterSorted` | src/main/java/me/soknight/maven/plugins/dependency/print/PrintDependencies.java:35 | removing elements from a sorted set leaves it sorted, so the survivors stay in set order |
| `KeyedSet.FilterNone` | src/main/java/me/soknight/maven/plugins/dependency/print/PrintDependencies.java:42-48 | when no element passes the test, nothing is left |
| `LineFormat.BuildNonEmpty` | src/main/java/me/soknight/maven/plugins/dependency/print/PrintModules.java:57-76 | once the line is non-empty, every later enabled field is appended after a `:` |
| `LineFormat.FieldLineIsJoin` | src/main/java/me/soknight/maven/plugins/dependency/print/PrintModules.java:51-78 | the line is the enabled values in field order, joined by `:`, except that empty enabled values before the first non-empty one leave no separator |
| `LineFormat.FieldLineJoinsNonEmpty` | src/main/java/me/soknight/maven/plugins/dependency/print/PrintDependencies.java:50-73 | when no enabled value is empty, the line is exactly the `:`-join of the enabled values |
| `LineFormat.FieldLineEmptyIff` | src/main/java/me/soknight/maven/plugins/dependency/print/PrintDependencies.java:50-73 | the line is empty exactly when every enabled value is empty; in particular it is `""` when every toggle is off |
| `LineFormat.CoordinatesLine` | src/main/java/me/soknight/maven/plugins/dependency/print/PrintModules.java:53-76 | with the groupId, artifactId and version toggles on and the fourth field off, a non-empty groupId gives `g:a:v` |
| `LineFormat.WithUrl` | src/main/java/me/soknight/maven/plugins/dependency/print/PrintDependencies.java:75-82 | no URL leaves the line alone; a URL follows `" from "` after a non-empty line and stands alone after an empty one; an empty URL still counts |
| `Mojo.IsProjectGroupId` | src/main/java/me/soknight/maven/plugins/dependency/print/DependencyPrintMojo.java:58-60 | false when projectGroupIds is unset or empty; otherwise true exactly when the groupId is an element |
| `Mojo.ProjectGroupIdsAsSet` | src/main/java/me/soknight/maven/plugins/dependency/print/DependencyPrintMojo.java:59 | lists with the same elements classify every groupId alike, whatever their order or repeats |
| `PrintModules.CreateParent` | src/main/java/me/soknight/maven/plugins/dependency/print/PrintModules.java:123-139 | the root record carries the root pom's own groupId, artifactId, version and packaging; the root must declare groupId and version |
| `PrintModules.CreateChild` | src/main/java/me/soknight/maven/plugins/dependency/print/PrintModules.java:127-143 | a child keeps its own groupId and version when it declares them and otherwise takes the parent record's; artifactId and packaging are always its own |
| `PrintModules.Walk` | src/main/java/me/soknight/maven/plugins/dependency/print/PrintModules.java:87-110 | `handleModules` as written; a successful walk leaves the set strictly sorted and loses no key it started with |
| `PrintModules.WalkIsInsertAll` | src/main/java/me/soknight/maven/plugins/dependency/print/PrintModules.java:87-110 | the walk fails exactly when the pure leaf traversal fails; on success it equals adding the traversal's leaves, in depth-first declared order, to the starting set |
| `PrintModules.LeavesAreDeclaredLeaves` | src/main/java/me/soknight/maven/plugins/dependency/print/PrintModules.java:103-108 | every collected module is the record of a node with no submodules in the declared tree; a module with submodules, and the root, are never collected |
| `PrintModules.CompleteTreeCollectsAllLeaves` | src/main/java/me/soknight/maven/plugins/dependency/print/PrintModules.java:91-108 | when every pom is present and parses, the traversal succeeds and collects every leaf of the declared tree |
| `PrintModules.QuietStop` | src/main/java/me/soknight/maven/plugins/dependency/print/PrintModules.java:91-96 | an unreadable pom ends its sibling list without error; the result equals the walk over the siblings before it, whatever follows, even a malformed pom |
| `PrintModules.NestedQuietStop` | src/main/java/me/soknight/maven/plugins/dependency/print/PrintModules.java:95-108 | an unreadable pom inside a child's module list ends only that list; the enclosing list continues with its next sibling from the set collected so far |
| `PrintModules.WalkAppend` | src/main/java/me/soknight/maven/plugins/dependency/print/PrintModules.java:91-109 | with no unreadable pom among the first siblings, the walk finishes them and then carries on with the rest of the list from the set they produced |
| `PrintModules.MalformedAborts` | src/main/java/me/soknight/maven/plugins/dependency/print/PrintModules.java:98-99 | a malformed pom reached by the walk fails the whole walk, whatever follows it |
| `PrintModules.NearestAncestorWins` | src/main/java/me/soknight/maven/plugins/dependency/print/PrintModules.java:131-134 | down any chain of descriptors, groupId and version come from the nearest declaring descriptor, or from the top record when none declares them; artifactId and packaging are the node's own |
| `PrintModules.LeafOnChain` | src/main/java/me/soknight/maven/plugins/dependency/print/PrintModules.java:102-108 | every declared leaf is the record obtained by applying `createChild` along a chain of present poms, from the first one declared in the list, through each one declared by the previous, down to one with no modules |
| `PrintModules.CollectedAlongChain` | src/main/java/me/soknight/maven/plugins/dependency/print/PrintModules.java:38-108 | every collected module is such a chain record built from the root's record, so its groupId and version are the nearest declared ones on its chain (`NearestAncestorWins`) |
| `PrintModules.Collect` | src/main/java/me/soknight/maven/plugins/dependency/print/PrintModules.java:37-45 | the collected set is strictly sorted; a root with no declared modules gives the empty set |
| `PrintModules.CollectFirstLeafWins` | src/main/java/me/soknight/maven/plugins/dependency/print/PrintModules.java:37-42 | collection fails exactly when the traversal meets a malformed pom; otherwise the set is strictly ascending and holds, for each key, the first leaf in depth-first declared order |
| `PrintModules.ModuleLine` | src/main/java/me/soknight/maven/plugins/dependency/print/PrintModules.java:49-78 | a module line is empty exactly when every enabled field of the module is empty |
| `PrintModules.ModuleLineFields` | src/main/java/me/soknight/maven/plugins/dependency/print/PrintModules.java:51-78 | a module line is groupId, artifactId, version and packaging, each if enabled, joined by `:`; it is `""` with every toggle off |
| `PrintModules.Execute` | src/main/java/me/soknight/maven/plugins/dependency/print/PrintModules.java:41-83 | the goal fails exactly when collection fails; otherwise it gives one line per collected module, in set order |
| `PrintModules.DefaultModuleLine` | src/main/java/me/soknight/maven/plugins/dependency/print/PrintModules.java:51-70 | with the default toggles, a module with a non-empty groupId prints as `groupId:artifactId:version` |
| `PrintModules.TwoLeafCollect` | src/main/java/me/soknight/maven/plugins/dependency/print/PrintModules.java:105-106 | root G1:A1:1.0 with leaves m1 and m2, where m2 declares no groupId or version: the set is G1:A1-m1:1.0 then G1:A1-m2:1.0, with m2 inheriting from the root |
| `PrintModules.TwoLeafScenario` | src/main/java/me/soknight/maven/plugins/dependency/print/PrintModules.java:49-83 | the same tree with the default toggles prints exactly `G1:A1-m1:1.0` then `G1:A1-m2:1.0` |
| `PrintModules.QuietStopScenario` | src/main/java/me/soknight/maven/plugins/dependency/print/PrintModules.java:91-108 | a missing pom inside b keeps b's earlier leaf and the root's next module, never reads the malformed pom after it, and raises no error |
| `PrintDependencies.CompileSet` | src/main/java/me/soknight/maven/plugins/dependency/print/PrintDependencies.java:33-35 | after `addAll` and `removeIf`, the set is strictly ascending by key and holds only compile-scoped artifacts |
| `PrintDependencies.Included` | src/main/java/me/soknight/maven/plugins/dependency/print/PrintDependencies.java:42-48 | an artifact whose groupId is listed in projectGroupIds is kept exactly when `includeProjectArtifacts` is on; any other artifact is kept exactly when `includeDependencies` is on |
| `PrintDependencies.Selected` | src/main/java/me/soknight/maven/plugins/dependency/print/PrintDependencies.java:39-47 | the printed artifacts stay in set order, are no more than the compile set, and are all compile-scoped, whatever the toggles |
| `PrintDependencies.SelectedExactly` | src/main/java/me/soknight/maven/plugins/dependency/print/PrintDependencies.java:33-48 | an artifact is printed exactly when it is the first input with its key, its scope is `"compile"`, and its ownership class is enabled |
| `PrintDependencies.FirstNonCompileShadowsKey` | src/main/java/me/soknight/maven/plugins/dependency/print/PrintDependencies.java:34-35 | when the first artifact with a key is not compile-scoped, no artifact with that key is printed, not even a later compile one |
| `PrintDependencies.BothExclusionsEmpty` | src/main/java/me/soknight/maven/plugins/dependency/print/PrintDependencies.java:42-48 | with `includeDependencies` and `includeProjectArtifacts` both off, nothing is printed |
| `PrintDependencies.ArtifactLine` | src/main/java/me/soknight/maven/plugins/dependency/print/PrintDependencies.java:50-82 | the field line, followed by `" from " + url` if the line is non-empty, or by the bare URL if it is empty; nothing is added when the toggle is off or the repository or URL is unset |
| `PrintDependencies.ArtifactLineAllOff` | src/main/java/me/soknight/maven/plugins/dependency/print/PrintDependencies.java:50-82 | with every print toggle off, including the repository URL, the line is `""`, whatever the two ownership filters |
| `PrintDependencies.Execute` | src/main/java/me/soknight/maven/plugins/dependency/print/PrintDependencies.java:40-86 | one line per selected artifact, in set order |
| `PrintDependencies.OwnedExcludedScenario` | src/main/java/me/soknight/maven/plugins/dependency/print/PrintDependencies.java:35-45 | for {(G1,A1,compile), (G2,A2,test), (G1,A3,compile)} with owned groupIds [G1] and project artifacts excluded, no line is printed |
| `PrintDependencies.DefaultArtifactLine` | src/main/java/me/soknight/maven/plugins/dependency/print/PrintDependencies.java:50-82 | with the default toggles and a URL set, the line is `groupId:artifactId:version from url` |
| `PrintDependencies.RepositorySuffixScenario` | src/main/java/me/soknight/maven/plugins/dependency/print/PrintDependencies.java:50-82 | G1:A1:1.0 from `https://example.test/repo` prints `G1:A1:1.0 from https://example.test/repo` |

## Left out

- `write` (DependencyPrintMojo.java:45-56) is left out. It creates directories and writes the file as UTF-8, truncating it. The model stops at the sequence of lines to be written. `outputDirectory` and `outputFileName` are left out with it.
- `verbose`, `getLog` and `String.format` are left out, because they only log.
- Climbing to the top project through `hasParent`/`getParent` (PrintModules.java:33-35) is left out. It belongs to the host's project graph, so the root descriptor is an input.
- Path resolution and pom loading are abstracted into a `Slot`. This covers `Path.resolve`, `Files.isReadable`, `MavenXpp3Reader.read` (whose input stream is never closed) and `MavenProject`'s own fallback to the pom's `<parent>` element. `Module.projectRoot` is left out, since it only feeds path resolution.
- Cyclic module paths are not modelled. A module entry such as `.`, or `../x` where `x` lists its own parent, makes `handleModules` (PrintModules.java:91-108) re-read the same pom with no record of visited directories. It recurses until `StackOverflowError`, which the catch at PrintModules.java:43 does not handle, so the goal never finishes normally. A `Slot` tree is finite, so the model cannot express this case. The walk's termination measure `SlotsSize` relies on that finiteness.
- `Module.hasParent`, `equals` and `hashCode` are left out. The `TreeSet` uses only the comparator.
- Artifact resolution (`project.getArtifacts()`) is left out. The artifacts are an input sequence.
- Null-pointer paths are left out. A root that declares no groupId or version is excluded by a precondition of `CreateParent`, because the Java throws. The Java also throws on a null scope and on a null groupId. A null artifactId throws only when its record is the first added to its set, or is compared with a record of the same groupId; otherwise it is added and printed as `null` (PrintModules.java:37, 61). The model cannot express these values. It also cannot express a null version or type, which Java would print as `null`.
- `Order.StrLess` compares Dafny characters (Unicode scalar values). `String.compareTo` compares UTF-16 code units. The two orders differ only between characters above U+FFFF and characters in U+E000–U+FFFF.
- Mojo annotations and `@Parameter` injection are left out. Their defaults are the constants `Mojo.Defaults` and `PrintDependencies.DefaultOptions`, plus `printPackaging` passed as `false` in the module scenario.

=== FILE: keyed_set.dfy ===
/**
  The `TreeSet` both mojos collect into, ordered by a comparator on
  (groupId, artifactId). It is modelled as a sequence strictly ascending by
  key; `add` of an element whose key is already present leaves the set as it
  is, so the first element inserted for a key is the one kept.
 */
module KeyedSet {
  import opened Order

  /** Strictly ascending by key: no two elements share a key. */
  ghost predicate Sorted<T>(s: seq<T>, key: T -> Key) {
    forall i, j :: 0 <= i < j < |s| ==> KeyLess(key(s[i]), key(s[j]))
  }

  /** The keys present in `s`. */
  ghost function Keys<T>(s: seq<T>, key: T -> Key): set<Key> {
    if |s| == 0 then {} else {key(s[0])} + Keys(s[1..], key)
  }

  /** A key is present exactly when some position carries it. */
  lemma {:induction false} KeysAt<T>(s: seq<T>, k: Key, key: T -> Key)
    ensures k in Keys(s, key) <==> exists i :: 0 <= i < |s| && key(s[i]) == k
  {
    if |s| > 0 {
      KeysAt(s[1..], k, key);
      if k in Keys(s[1..], key) {
        var i :| 0 <= i < |s[1..]| && key(s[1..][i]) == k;
        assert key(s[i + 1]) == k;
      }
      if exists i :: 0 <= i < |s| && key(s[i]) == k {
        var i :| 0 <= i < |s| && key(s[i]) == k;
        if i > 0 {
          assert key(s[1..][i - 1]) == k;
        }
      }
    }
  }

  /** `e` is the first element of `xs` carrying its key. */
  ghost predicate FirstOfKey<T>(xs: seq<T>, e: T, key: T -> Key) {
    exists i :: 0 <= i < |xs| && xs[i] == e && NoEarlierKey(xs, i, key(e), key)
  }

  /** No element before position `i` of `xs` carries key `k`. */
  ghost predicate NoEarlierKey<T>(xs: seq<T>, i: int, k: Key, key: T -> Key)
    requires 0 <= i <= |xs|
  {
    forall j :: 0 <= j < i ==> key(xs[j]) != k
  }

  /** `TreeSet.add`: place `x` by key, or do nothing when its key is present. */
  function Insert<T(==,!new)>(s: seq<T>, x: T, key: T -> Key): (r: seq<T>)
    requires Sorted(s, key)
    ensures Sorted(r, key)
    ensures Keys(r, key) == Keys(s, key) + {key(x)}
    ensures key(x) in Keys(s, key) ==> r == s
    ensures key(x) !in Keys(s, key) ==> |r| == |s| + 1
    ensures forall e :: e in r <==> e in s || (e == x && key(x) !in Keys(s, key))
  {
    if |s| == 0 then
      [x]
    else if key(x) == key(s[0]) then
      s
    else if KeyLess(key(x), key(s[0])) then
      HeadBelowSorted(s, x, key);
      [x] + s
    else
      SortedTail(s, key);
      var rest := Insert(s[1..], x, key);
      KeyTrichotomy(key(x), key(s[0]));
      ConsSorted(s, rest, x, key);
      [s[0]] + rest
  }

  /** Keys of a sorted sequence are above its head; an element below the head extends it. */
  lemma HeadBelowSorted<T>(s: seq<T>, x: T, key: T -> Key)
    requires |s| > 0 && Sorted(s, key) && KeyLess(key(x), key(s[0]))
    ensures Sorted([x] + s, key)
    ensures key(x) !in Keys(s, key)
    ensures Keys([x] + s, key) == Keys(s, key) + {key(x)}
  {
    var t := [x] + s;
    forall i, j | 0 <= i < j < |t|
      ensures KeyLess(key(t[i]), key(t[j]))
    {
      if i == 0 && j > 1 {
        KeyLessTransitive(key(x), key(s[0]), key(s[j - 1]));
      }
    }
    KeysAt(s, key(x), key);
    assert ([x] + s)[1..] == s;
    if key(x) in Keys(s, key) {
      var i :| 0 <= i < |s| && key(s[i]) == key(x);
      if i > 0 {
        KeyLessTransitive(key(x), key(s[0]), key(s[i]));
      }
      KeyLessIrreflexive(key(x));
    }
  }

  lemma ConsSorted<T>(s: seq<T>, rest: seq<T>, x: T, key: T -> Key)
    requires |s| > 0 && Sorted(s, key) && KeyLess(key(s[0]), key(x))
    requires Sorted(rest, key)
    requires Keys(rest, key) == Keys(s[1..], key) + {key(x)}
    ensures Sorted([s[0]] + rest, key)
    ensures Keys([s[0]] + rest, key) == Keys(s, key) + {key(x)}
  {
    var t := [s[0]] + rest;
    forall i, j | 0 <= i < j < |t|
      ensures KeyLess(key(t[i]), key(t[j]))
    {
      if i == 0 {
        assert key(t[j]) == key(rest[j - 1]);
        KeysAt(rest, key(rest[j - 1]), key);
        assert key(rest[j - 1]) in Keys(s[1..], key) + {key(x)};
        if key(rest[j - 1]) != key(x) {
          KeysAt(s[1..], key(rest[j - 1]), key);
          var k :| 0 <= k < |s[1..]| && key(s[1..][k]) == key(rest[j - 1]);
          assert s[1..][k] == s[k + 1];
        }
      }
    }
    assert t[1..] == rest;
  }

  lemma SortedTail<T>(s: seq<T>, key: T -> Key)
    requires |s| > 0 && Sorted(s, key)
    ensures Sorted(s[1..], key)
  {
    assert forall i :: 0 <= i < |s| - 1 ==> s[1..][i] == s[i + 1];
  }

  /** Successive `add`s of `xs`, in order, into the set `acc` (`addAll`, or repeated `add`). */
  function InsertAll<T(==,!new)>(acc: seq<T>, xs: seq<T>, key: T -> Key): (r: seq<T>)
    requires Sorted(acc, key)
    ensures Sorted(r, key)
    ensures Keys(r, key) == Keys(acc, key) + Keys(xs, key)
    decreases |xs|
  {
    if |xs| == 0 then acc else InsertAll(Insert(acc, xs[0], key), xs[1..], key)
  }

  /** A fresh `TreeSet` filled from `xs` in order. */
  function FromSeq<T(==,!new)>(xs: seq<T>, key: T -> Key): (r: seq<T>)
    ensures Sorted(r, key)
    ensures Keys(r, key) == Keys(xs, key)
  {
    InsertAll([], xs, key)
  }

  /** Adding two runs one after the other is adding their concatenation. */
  lemma {:induction false} InsertAllAppend<T(!new)>(acc: seq<T>, xs: seq<T>, ys: seq<T>, key: T -> Key)
    requires Sorted(acc, key)
    ensures InsertAll(acc, xs + ys, key) == InsertAll(InsertAll(acc, xs, key), ys, key)
    decreases |xs|
  {
    if |xs| > 0 {
      assert (xs + ys)[0] == xs[0];
      assert (xs + ys)[1..] == xs[1..] + ys;
      InsertAllAppend(Insert(acc, xs[0], key), xs[1..], ys, key);
    } else {
      assert xs + ys == ys;
    }
  }

  /** Appending `y` adds it to the first-of-key elements exactly when its key is new. */
  lemma FirstOfKeySnoc<T(!new)>(xs: seq<T>, y: T, e: T, key: T -> Key)
    ensures FirstOfKey(xs + [y], e, key) <==> FirstOfKey(xs, e, key) || (e == y && key(y) !in Keys(xs, key))
  {
    var t := xs + [y];
    KeysAt(xs, key(y), key);
    if FirstOfKey(t, e, key) {
      var i :| 0 <= i < |t| && t[i] == e && NoEarlierKey(t, i, key(e), key);
      if i < |xs| {
        assert forall j :: 0 <= j < i ==> xs[j] == t[j];
        assert xs[i] == e && NoEarlierKey(xs, i, key(e), key);
      } else {
        assert forall j :: 0 <= j < |xs| ==> xs[j] == t[j];
      }
    }
    if FirstOfKey(xs, e, key) {
      var i :| 0 <= i < |xs| && xs[i] == e && NoEarlierKey(xs, i, key(e), key);
      assert t[i] == e && NoEarlierKey(t, i, key(e), key);
    }
    if e == y && key(y) !in Keys(xs, key) {
      assert t[|xs|] == e;
      assert NoEarlierKey(t, |xs|, key(e), key);
    }
  }

  /**
    First insertion wins: an element is in the set built from `xs` exactly
    when it is the first element of `xs` with its key.
   */
  lemma {:induction false} FromSeqFirstWins<T(!new)>(xs: seq<T>, key: T -> Key)
    ensures forall e :: e in FromSeq(xs, key) <==> FirstOfKey(xs, e, key)
    decreases |xs|
  {
    if |xs| == 0 {
      assert forall e :: !FirstOfKey(xs, e, key);
    } else {
      var init, y := xs[..|xs| - 1], xs[|xs| - 1];
      assert xs == init + [y];
      FromSeqFirstWins(init, key);
      InsertAllAppend([], init, [y], key);
      assert InsertAll(FromSeq(init, key), [y], key) == Insert(FromSeq(init, key), y, key);
      forall e
        ensures e in FromSeq(xs, key) <==> FirstOfKey(xs, e, key)
      {
        FirstOfKeySnoc(init, y, e, key);
      }
    }
  }

  /** At most one element is first with a given key. */
  lemma FirstOfKeyUnique<T>(xs: seq<T>, a: T, b: T, key: T -> Key)
    requires FirstOfKey(xs, a, key) && FirstOfKey(xs, b, key) && key(a) == key(b)
    ensures a == b
  {
  }

  /** `removeIf` with the negation of `p`: keeps the elements satisfying `p`, in order. */
  function Filter<T(!new)>(s: seq<T>, p: T -> bool): (r: seq<T>)
    ensures |r| <= |s|
    ensures forall i :: 0 <= i < |r| ==> p(r[i])
    ensures forall e :: e in r <==> e in s && p(e)
  {
    if |s| == 0 then []
    else if p(s[0]) then [s[0]] + Filter(s[1..], p)
    else Filter(s[1..], p)
  }

  /** A filter that no element passes leaves nothing. */
  lemma {:induction false} FilterNone<T(!new)>(s: seq<T>, p: T -> bool)
    requires forall e :: e in s ==> !p(e)
    ensures Filter(s, p) == []
    decreases |s|
  {
    if |s| > 0 {
      assert forall e :: e in s[1..] ==> e in s;
      FilterNone(s[1..], p);
    }
  }

  /** Removing elements from a sorted set leaves it sorted. */
  lemma {:induction false} FilterSorted<T(!new)>(s: seq<T>, p: T -> bool, key: T -> Key)
    requires Sorted(s, key)
    ensures Sorted(Filter(s, p), key)
    decreases |s|
  {
    if |s| > 0 {
      SortedTail(s, key);
      FilterSorted(s[1..], p, key);
      if p(s[0]) {
        var tail := Filter(s[1..], p);
        forall e | e in tail
          ensures KeyLess(key(s[0]), key(e))
        {
          SortedHeadBelow(s, e, key);
        }
        ConsBelowSorted(s[0], tail, key);
      }
    }
  }

  lemma SortedHeadBelow<T>(s: seq<T>, e: T, key: T -> Key)
    requires |s| > 0 && Sorted(s, key) && e in s[1..]
    ensures KeyLess(key(s[0]), key(e))
  {
    var k :| 0 <= k < |s[1..]| && s[1..][k] == e;
    assert s[k + 1] == e;
  }

  lemma ConsBelowSorted<T>(x: T, t: seq<T>, key: T -> Key)
    requires Sorted(t, key)
    requires forall e :: e in t ==> KeyLess(key(x), key(e))
    ensures Sorted([x] + t, key)
  {
    var r := [x] + t;
    forall i, j | 0 <= i < j < |r|
      ensures KeyLess(key(r[i]), key(r[j]))
    {
      assert r[j] == t[j - 1];
      if i > 0 {
        assert r[i] == t[i - 1];
      } else {
        assert t[j - 1] in t;
      }
    }
  }
}

=== FILE: line_format.dfy ===
/**
  The `StringBuilder` loop shared by both mojos: each enabled field is
  appended in a fixed order, preceded by ':' only when the line built so far
  is non-empty; artifact lines may end with a repository URL.
 */
module LineFormat {
  import opened Wrappers

  /** One candidate field of a line: its print toggle and its value. */
  datatype Field = Field(enabled: bool, value: string)

  /** One `if (toggle) { if (builder.length() != 0) append(":"); append(value); }` step. */
  function Append(line: string, f: Field): string {
    if !f.enabled then line
    else if |line| != 0 then line + ":" + f.value
    else line + f.value
  }

  /** Runs the append steps for `fields` in order, starting from `line`. */
  function Build(line: string, fields: seq<Field>): string
    decreases |fields|
  {
    if |fields| == 0 then line else Build(Append(line, fields[0]), fields[1..])
  }

  /** The line built from an empty `StringBuilder`. */
  function FieldLine(fields: seq<Field>): string {
    Build("", fields)
  }

  /** The values whose toggle is on, in field order. */
  function Enabled(fields: seq<Field>): (r: seq<string>)
    ensures |r| <= |fields|
    ensures forall f :: f in fields && f.enabled ==> f.value in r
    ensures forall v :: v in r ==> Field(true, v) in fields
  {
    if |fields| == 0 then []
    else if fields[0].enabled then [fields[0].value] + Enabled(fields[1..])
    else Enabled(fields[1..])
  }

  /** `xs` without its leading run of empty strings. */
  function DropLeadingEmpty(xs: seq<string>): (r: seq<string>)
    ensures |r| == 0 || |r[0]| > 0
    ensures |r| <= |xs| && r == xs[|xs| - |r|..]
  {
    if |xs| == 0 || |xs[0]| > 0 then xs else DropLeadingEmpty(xs[1..])
  }

  /** ':' followed by each value, concatenated. */
  function ColonEach(xs: seq<string>): string {
    if |xs| == 0 then "" else ":" + xs[0] + ColonEach(xs[1..])
  }

  /** The values joined with ':' between neighbours (`String.join(":", xs)`). */
  function Join(xs: seq<string>): string {
    if |xs| == 0 then "" else xs[0] + ColonEach(xs[1..])
  }

  /** Once the line is non-empty every enabled field is preceded by ':'. */
  lemma {:induction false} BuildNonEmpty(line: string, fields: seq<Field>)
    requires |line| > 0
    ensures Build(line, fields) == line + ColonEach(Enabled(fields))
    decreases |fields|
  {
    if |fields| > 0 {
      BuildNonEmpty(Append(line, fields[0]), fields[1..]);
    }
  }

  /**
    The line is the enabled values joined by ':', except that enabled fields
    whose values are empty and come before the first non-empty one leave no
    separator behind.
   */
  lemma {:induction false} FieldLineIsJoin(fields: seq<Field>)
    ensures FieldLine(fields) == Join(DropLeadingEmpty(Enabled(fields)))
    decreases |fields|
  {
    if |fields| > 0 {
      var f, rest := fields[0], fields[1..];
      assert FieldLine(fields) == Build(Append("", f), rest);
      if !f.enabled {
        assert Enabled(fields) == Enabled(rest);
        FieldLineIsJoin(rest);
      } else if |f.value| == 0 {
        assert Append("", f) == "";
        var e := [f.value] + Enabled(rest);
        assert Enabled(fields) == e && e[1..] == Enabled(rest);
        assert DropLeadingEmpty(e) == DropLeadingEmpty(Enabled(rest));
        FieldLineIsJoin(rest);
      } else {
        assert Append("", f) == f.value;
        var e := [f.value] + Enabled(rest);
        assert Enabled(fields) == e && DropLeadingEmpty(e) == e;
        assert e[1..] == Enabled(rest);
        BuildNonEmpty(f.value, rest);
      }
    }
  }

  /** When no enabled value is empty the line is exactly their ':'-join. */
  lemma FieldLineJoinsNonEmpty(fields: seq<Field>)
    requires forall f :: f in fields && f.enabled ==> |f.value| > 0
    ensures FieldLine(fields) == Join(Enabled(fields))
  {
    FieldLineIsJoin(fields);
    var e := Enabled(fields);
    if |e| > 0 {
      assert Field(true, e[0]) in fields;
    }
  }

  /** The line is empty exactly when every enabled value is empty; in particular with all toggles off. */
  lemma {:induction false} FieldLineEmptyIff(fields: seq<Field>)
    ensures FieldLine(fields) == "" <==> forall f :: f in fields && f.enabled ==> f.value == ""
    decreases |fields|
  {
    if |fields| > 0 {
      var f := fields[0];
      assert forall g :: g in fields <==> g == f || g in fields[1..];
      if !f.enabled || |f.value| == 0 {
        assert Append("", f) == "";
        FieldLineEmptyIff(fields[1..]);
      } else {
        assert Append("", f) == f.value;
        BuildNonEmpty(f.value, fields[1..]);
        assert f in fields;
      }
    }
  }

  /** With groupId, artifactId and version on and the fourth field off, a line from a non-empty groupId is g:a:v. */
  lemma CoordinatesLine(g: string, a: string, v: string, x: string)
    requires |g| > 0
    ensures FieldLine([Field(true, g), Field(true, a), Field(true, v), Field(false, x)]) == g + ":" + a + ":" + v
  {
    var rest := [Field(true, a), Field(true, v), Field(false, x)];
    assert [Field(true, g), Field(true, a), Field(true, v), Field(false, x)] == [Field(true, g)] + rest;
    LeadingNonEmpty(g, rest);
    EnabledTwoOfThree(a, v, x);
    ColonEachOfTwo(a, v);
    assert g + (":" + a + ":" + v) == g + ":" + a + ":" + v;
  }

  /** A non-empty enabled first field is followed by ':' and each later enabled value. */
  lemma LeadingNonEmpty(g: string, rest: seq<Field>)
    requires |g| > 0
    ensures FieldLine([Field(true, g)] + rest) == g + ColonEach(Enabled(rest))
  {
    var fs := [Field(true, g)] + rest;
    assert fs[0] == Field(true, g) && fs[1..] == rest;
    assert Append("", fs[0]) == g;
    BuildNonEmpty(g, rest);
  }

  lemma EnabledTwoOfThree(a: string, v: string, x: string)
    ensures Enabled([Field(true, a), Field(true, v), Field(false, x)]) == [a, v]
  {
    var t1 := [Field(true, a), Field(true, v), Field(false, x)];
    var t2 := [Field(true, v), Field(false, x)];
    var t3 := [Field(false, x)];
    assert t1[1..] == t2 && t2[1..] == t3 && t3[1..] == [];
    assert Enabled(t3) == [];
    assert Enabled(t2) == [v];
  }

  lemma ColonEachOfTwo(a: string, v: string)
    ensures ColonEach([a, v]) == ":" + a + ":" + v
  {
    assert [a, v][1..] == [v] && [v][1..] == [];
    assert ColonEach([v]) == ":" + v;
  }

  /**
    The repository suffix: nothing when there is no URL; otherwise
    " from " and the URL after a non-empty line, the bare URL after an empty one.
   */
  function WithUrl(line: string, url: Option<string>): (r: string)
    ensures url.None? ==> r == line
    ensures url.Some? && |line| > 0 ==> r == line + " from " + url.value
    ensures url.Some? && |line| == 0 ==> r == url.value
  {
    match url
    case None => line
    case Some(u) => if |line| != 0 then line + " from " + u else line + u
  }
}

=== FILE: mojo.dfy ===
/** Configuration shared by both mojos and the project-ownership test. */
module Mojo {
  import opened Wrappers

  /**
    The `@Parameter`s common to both mojos that the core reads: the three
    coordinate print toggles, the repository-URL toggle and the optional
    list of groupIds owned by the project (`null` when not configured).
   */
  datatype Toggles = Toggles(
    printGroupId: bool,
    printArtifactId: bool,
    printVersion: bool,
    printRepositoryUrl: bool,
    projectGroupIds: Option<seq<string>>)

  /** The annotation defaults: every print toggle on, no project groupIds. */
  const Defaults := Toggles(true, true, true, true, None)

  /**
    Whether `groupId` belongs to the project: exactly when it is an element
    of the configured list, so never when the list is unset (null) or empty.
   */
  function IsProjectGroupId(ids: Option<seq<string>>, groupId: string): (r: bool)
    ensures r <==> ids.Some? && groupId in ids.value
  {
    ids.Some? && |ids.value| != 0 && groupId in ids.value
  }

  /** Only membership matters: lists with the same elements classify alike, whatever their order or repeats. */
  lemma ProjectGroupIdsAsSet(a: seq<string>, b: seq<string>, groupId: string)
    requires (set x | x in a) == (set x | x in b)
    ensures IsProjectGroupId(Some(a), groupId) == IsProjectGroupId(Some(b), groupId)
  {
    var sa, sb := set x | x in a, set x | x in b;
    assert groupId in a <==> groupId in sa;
    assert groupId in b <==> groupId in sb;
    assert groupId in a <==> groupId in b;
  }
}

=== FILE: order.dfy ===
/**
  The ordering used by the plugin's `TreeSet`s: `String.compareTo` on the
  groupId, then on the artifactId. Strings compare character by character;
  a proper prefix sorts before the longer string.
 */
module Order {

  /** The identity of a module or artifact record: (groupId, artifactId). */
  datatype Key = Key(groupId: string, artifactId: string)

  /**
    `String.compareTo(a, b) < 0` as the JDK documents it: either the strings
    first differ at an index both have, where `a`'s character is smaller, or
    `a` is a proper prefix of `b`.
   */
  ghost predicate CompareToNegative(a: string, b: string) {
    || (exists k :: 0 <= k < |a| && k < |b| && a[..k] == b[..k] && a[k] < b[k])
    || (|a| < |b| && a == b[..|a|])
  }

  /** Removing an equal first character does not change how two strings compare. */
  lemma CompareToNegativeTail(a: string, b: string)
    requires |a| > 0 && |b| > 0 && a[0] == b[0]
    ensures CompareToNegative(a, b) <==> CompareToNegative(a[1..], b[1..])
  {
    if CompareToNegative(a, b) {
      DropEqualHead(a, b);
    }
    if CompareToNegative(a[1..], b[1..]) {
      AddEqualHead(a, b);
    }
  }

  /** A shared first character can be dropped from a `compareTo`-negative pair. */
  lemma DropEqualHead(a: string, b: string)
    requires |a| > 0 && |b| > 0 && a[0] == b[0] && CompareToNegative(a, b)
    ensures CompareToNegative(a[1..], b[1..])
  {
    if exists k :: 0 <= k < |a| && k < |b| && a[..k] == b[..k] && a[k] < b[k] {
      var k :| 0 <= k < |a| && k < |b| && a[..k] == b[..k] && a[k] < b[k];
      assert k > 0;
      assert a[1..][..k - 1] == a[..k][1..] && b[1..][..k - 1] == b[..k][1..];
      assert a[1..][k - 1] == a[k] && b[1..][k - 1] == b[k];
    } else {
      assert a[1..] == b[1..][..|a| - 1];
    }
  }

  /** A shared first character can be put in front of a `compareTo`-negative pair. */
  lemma AddEqualHead(a: string, b: string)
    requires |a| > 0 && |b| > 0 && a[0] == b[0] && CompareToNegative(a[1..], b[1..])
    ensures CompareToNegative(a, b)
  {
    var a', b' := a[1..], b[1..];
    if exists k :: 0 <= k < |a'| && k < |b'| && a'[..k] == b'[..k] && a'[k] < b'[k] {
      var k :| 0 <= k < |a'| && k < |b'| && a'[..k] == b'[..k] && a'[k] < b'[k];
      assert a[..k + 1] == [a[0]] + a'[..k] && b[..k + 1] == [b[0]] + b'[..k];
      assert a[k + 1] == a'[k] && b[k + 1] == b'[k];
    } else {
      assert a == [a[0]] + a' && b[..|a|] == [b[0]] + b'[..|a'|];
    }
  }

  /** Strings that differ in their first character compare by that character. */
  lemma CompareToNegativeHead(a: string, b: string)
    requires |a| > 0 && |b| > 0 && a[0] != b[0]
    ensures CompareToNegative(a, b) <==> a[0] < b[0]
  {
    if a[0] < b[0] {
      assert a[..0] == b[..0];
    }
  }

  /**
    Strict lexicographic order on strings, as `String.compareTo(a, b) < 0`:
    no string is below itself, and the empty string is below every other.
   */
  function StrLess(a: string, b: string): (r: bool)
    ensures r ==> a != b
    ensures |a| == 0 ==> (r <==> |b| > 0)
    decreases |a|
  {
    if |b| == 0 then false
    else if |a| == 0 then true
    else if a[0] != b[0] then a[0] < b[0]
    else StrLess(a[1..], b[1..])
  }

  /** `StrLess` is exactly the JDK's documented `compareTo(a, b) < 0`. */
  lemma {:induction false} StrLessIsCompareTo(a: string, b: string)
    ensures StrLess(a, b) <==> CompareToNegative(a, b)
    decreases |a|
  {
    if |b| == 0 {
    } else if |a| == 0 {
      assert a == b[..0];
    } else if a[0] != b[0] {
      CompareToNegativeHead(a, b);
    } else {
      CompareToNegativeTail(a, b);
      StrLessIsCompareTo(a[1..], b[1..]);
    }
  }

  /**
    Strict order on keys, `Comparator.comparing(groupId).thenComparing(artifactId)`:
    distinct groupIds decide alone; equal groupIds defer to the artifactIds.
   */
  function KeyLess(k: Key, l: Key): (r: bool)
    ensures k.groupId != l.groupId ==> (r <==> StrLess(k.groupId, l.groupId))
    ensures k.groupId == l.groupId ==> (r <==> StrLess(k.artifactId, l.artifactId))
  {
    StrLess(k.groupId, l.groupId)
    || (k.groupId == l.groupId && StrLess(k.artifactId, l.artifactId))
  }

  lemma {:induction false} StrLessIrreflexive(a: string)
    ensures !StrLess(a, a)
    decreases |a|
  {
    if |a| > 0 {
      StrLessIrreflexive(a[1..]);
    }
  }

  lemma {:induction false} StrLessTransitive(a: string, b: string, c: string)
    requires StrLess(a, b) && StrLess(b, c)
    ensures StrLess(a, c)
    decreases |a|
  {
    if |a| > 0 && a[0] == b[0] && b[0] == c[0] {
      StrLessTransitive(a[1..], b[1..], c[1..]);
    }
  }

  /** Any two distinct strings are comparable: `compareTo` is total. */
  lemma {:induction false} StrLessTotal(a: string, b: string)
    requires a != b
    ensures StrLess(a, b) || StrLess(b, a)
    decreases |a|
  {
    if |a| > 0 && |b| > 0 && a[0] == b[0] {
      assert a == [a[0]] + a[1..] && b == [b[0]] + b[1..];
      StrLessTotal(a[1..], b[1..]);
    }
  }

  lemma KeyLessIrreflexive(k: Key)
    ensures !KeyLess(k, k)
  {
    StrLessIrreflexive(k.groupId);
    StrLessIrreflexive(k.artifactId);
  }

  lemma KeyLessTransitive(k: Key, l: Key, m: Key)
    requires KeyLess(k, l) && KeyLess(l, m)
    ensures KeyLess(k, m)
  {
    if StrLess(k.groupId, l.groupId) && StrLess(l.groupId, m.groupId) {
      StrLessTransitive(k.groupId, l.groupId, m.groupId);
    } else if k.groupId == l.groupId && l.groupId == m.groupId {
      StrLessTransitive(k.artifactId, l.artifactId, m.artifactId);
    }
  }

  /** The comparator is a strict total order: exactly one of <, =, > holds. */
  lemma KeyTrichotomy(k: Key, l: Key)
    ensures k == l || KeyLess(k, l) || KeyLess(l, k)
    ensures !(KeyLess(k, l) && KeyLess(l, k))
  {
    if k != l {
      if k.groupId != l.groupId {
        StrLessTotal(k.groupId, l.groupId);
      } else {
        StrLessTotal(k.artifactId, l.artifactId);
      }
    }
    if KeyLess(k, l) && KeyLess(l, k) {
      KeyLessTransitive(k, l, k);
      KeyLessIrreflexive(k);
    }
  }
}

=== FILE: print_dependencies.dfy ===
/**
  The `print-dependencies` goal: put the project's resolved artifacts into a
  set ordered by (groupId, artifactId), drop every non-compile artifact,
  drop artifacts by ownership, and render one line per remaining artifact.
 */
module PrintDependencies {
  import opened Wrappers
  import opened Order
  import opened KeyedSet
  import opened LineFormat
  import opened Mojo

  /** The repository an artifact was resolved from; its URL may be unset. */
  datatype Repository = Repository(url: Option<string>)

  /** A resolved artifact as the host supplies it; `repository` may be unset. */
  datatype Artifact = Artifact(
    groupId: string,
    artifactId: string,
    version: string,
    artifactType: string,
    scope: string,
    repository: Option<Repository>)

  /** The goal's own `@Parameter`s. */
  datatype Options = Options(includeDependencies: bool, includeProjectArtifacts: bool, printType: bool)

  /** The annotation defaults: both kinds of artifact included, type not printed. */
  const DefaultOptions := Options(true, true, false)

  function ArtifactKey(a: Artifact): Key {
    Key(a.groupId, a.artifactId)
  }

  predicate IsCompile(a: Artifact) {
    a.scope == "compile"
  }

  /** The set after `addAll` and `removeIf(scope is not "compile")`, in that order. */
  function CompileSet(artifacts: seq<Artifact>): (r: seq<Artifact>)
    ensures Sorted(r, ArtifactKey)
    ensures forall a :: a in r ==> a.scope == "compile"
  {
    var all := FromSeq(artifacts, ArtifactKey);
    FilterSorted(all, IsCompile, ArtifactKey);
    Filter(all, IsCompile)
  }

  /** The ownership filter: project artifacts need `includeProjectArtifacts`, the rest `includeDependencies`. */
  function Included(o: Options, t: Toggles, a: Artifact): (r: bool)
    ensures t.projectGroupIds.Some? && a.groupId in t.projectGroupIds.value ==> (r <==> o.includeProjectArtifacts)
    ensures (t.projectGroupIds.None? || a.groupId !in t.projectGroupIds.value) ==> (r <==> o.includeDependencies)
  {
    if IsProjectGroupId(t.projectGroupIds, a.groupId) then o.includeProjectArtifacts
    else o.includeDependencies
  }

  /** The artifacts the loop does not skip, in set order. */
  function Selected(o: Options, t: Toggles, artifacts: seq<Artifact>): (r: seq<Artifact>)
    ensures Sorted(r, ArtifactKey)
    ensures |r| <= |CompileSet(artifacts)|
    ensures forall a :: a in r ==> a.scope == "compile"
  {
    var c := CompileSet(artifacts);
    FilterSorted(c, a => Included(o, t, a), ArtifactKey);
    Filter(c, a => Included(o, t, a))
  }

  /**
    An artifact is printed exactly when it is the first of the input with its
    (groupId, artifactId), its scope is "compile", and its ownership class is
    switched on.
   */
  lemma SelectedExactly(o: Options, t: Toggles, artifacts: seq<Artifact>)
    ensures forall a :: a in Selected(o, t, artifacts) <==>
      && FirstOfKey(artifacts, a, ArtifactKey)
      && a.scope == "compile"
      && (IsProjectGroupId(t.projectGroupIds, a.groupId) ==> o.includeProjectArtifacts)
      && (!IsProjectGroupId(t.projectGroupIds, a.groupId) ==> o.includeDependencies)
  {
    FromSeqFirstWins(artifacts, ArtifactKey);
  }

  /**
    Deduplication comes before the scope filter: when the first artifact with
    a key is not compile-scoped, no artifact with that key is printed, even a
    later compile-scoped one.
   */
  lemma FirstNonCompileShadowsKey(o: Options, t: Toggles, artifacts: seq<Artifact>, first: Artifact)
    requires FirstOfKey(artifacts, first, ArtifactKey) && first.scope != "compile"
    ensures forall a :: a in Selected(o, t, artifacts) ==> ArtifactKey(a) != ArtifactKey(first)
  {
    SelectedExactly(o, t, artifacts);
    forall a | a in Selected(o, t, artifacts)
      ensures ArtifactKey(a) != ArtifactKey(first)
    {
      if ArtifactKey(a) == ArtifactKey(first) {
        FirstOfKeyUnique(artifacts, a, first, ArtifactKey);
      }
    }
  }

  /** With both inclusion toggles off nothing is printed. */
  lemma BothExclusionsEmpty(printType: bool, t: Toggles, artifacts: seq<Artifact>)
    ensures Selected(Options(false, false, printType), t, artifacts) == []
  {
    FilterNone(CompileSet(artifacts), a => Included(Options(false, false, printType), t, a));
  }

  /** The repository URL, when both the repository and its URL are set. */
  function RepositoryUrl(a: Artifact): Option<string> {
    match a.repository
    case None => None
    case Some(repo) => repo.url
  }

  /** The coordinate fields of an artifact line, in print order. */
  function ArtifactFields(a: Artifact, o: Options, t: Toggles): seq<Field> {
    [Field(t.printGroupId, a.groupId),
     Field(t.printArtifactId, a.artifactId),
     Field(t.printVersion, a.version),
     Field(o.printType, a.artifactType)]
  }

  /** One output line: the enabled fields, then the repository URL when it is printed and set. */
  function ArtifactLine(a: Artifact, o: Options, t: Toggles): (r: string)
    ensures !t.printRepositoryUrl || RepositoryUrl(a).None? ==> r == FieldLine(ArtifactFields(a, o, t))
    ensures t.printRepositoryUrl && RepositoryUrl(a).Some? && FieldLine(ArtifactFields(a, o, t)) != "" ==>
      r == FieldLine(ArtifactFields(a, o, t)) + " from " + RepositoryUrl(a).value
    ensures t.printRepositoryUrl && RepositoryUrl(a).Some? && FieldLine(ArtifactFields(a, o, t)) == "" ==>
      r == RepositoryUrl(a).value
  {
    var line := FieldLine(ArtifactFields(a, o, t));
    if t.printRepositoryUrl then WithUrl(line, RepositoryUrl(a)) else line
  }

  /** With every print toggle off, the repository URL's included, every line is empty, whatever the ownership filters. */
  lemma ArtifactLineAllOff(a: Artifact, includeDependencies: bool, includeProjectArtifacts: bool, ids: Option<seq<string>>)
    ensures ArtifactLine(a, Options(includeDependencies, includeProjectArtifacts, false), Toggles(false, false, false, false, ids)) == ""
  {
    FieldLineEmptyIff(ArtifactFields(a, Options(includeDependencies, includeProjectArtifacts, false), Toggles(false, false, false, false, ids)));
  }

  /** The `print-dependencies` goal: the lines to write, one per selected artifact, in set order. */
  function Execute(o: Options, t: Toggles, artifacts: seq<Artifact>): (r: seq<string>)
    ensures |r| == |Selected(o, t, artifacts)|
    ensures forall i :: 0 <= i < |r| ==> r[i] == ArtifactLine(Selected(o, t, artifacts)[i], o, t)
  {
    var s := Selected(o, t, artifacts);
    seq(|s|, i requires 0 <= i < |s| => ArtifactLine(s[i], o, t))
  }

  /**
    G1:A1 and G1:A3 are compile-scoped but owned by the project, which is
    excluded; G2:A2 is test-scoped: nothing is printed.
   */
  lemma OwnedExcludedScenario()
    ensures Execute(
      Options(true, false, false),
      Toggles(true, true, true, true, Some(["G1"])),
      [Artifact("G1", "A1", "1.0", "jar", "compile", None),
       Artifact("G2", "A2", "2.0", "jar", "test", None),
       Artifact("G1", "A3", "1.1", "jar", "compile", None)]) == []
  {
    var o := Options(true, false, false);
    var t := Toggles(true, true, true, true, Some(["G1"]));
    var xs := [Artifact("G1", "A1", "1.0", "jar", "compile", None),
               Artifact("G2", "A2", "2.0", "jar", "test", None),
               Artifact("G1", "A3", "1.1", "jar", "compile", None)];
    var c := CompileSet(xs);
    FromSeqFirstWins(xs, ArtifactKey);
    forall a | a in c
      ensures !Included(o, t, a)
    {
      assert FirstOfKey(xs, a, ArtifactKey);
      var i :| 0 <= i < |xs| && xs[i] == a && NoEarlierKey(xs, i, ArtifactKey(a), ArtifactKey);
      assert "G1" in ["G1"];
    }
    FilterNone(c, a => Included(o, t, a));
  }

  /** With the default toggles: groupId:artifactId:version, then " from " and the URL when it is set. */
  lemma DefaultArtifactLine(a: Artifact)
    requires |a.groupId| > 0 && RepositoryUrl(a).Some?
    ensures ArtifactLine(a, DefaultOptions, Defaults) ==
      a.groupId + ":" + a.artifactId + ":" + a.version + " from " + RepositoryUrl(a).value
  {
    CoordinatesLine(a.groupId, a.artifactId, a.version, a.artifactType);
  }

  /** G1:A1:1.0 from a repository at https://example.test/repo, default toggles. */
  lemma RepositorySuffixScenario()
    ensures ArtifactLine(
      Artifact("G1", "A1", "1.0", "jar", "compile", Some(Repository(Some("https://example.test/repo")))),
      DefaultOptions, Defaults) == "G1:A1:1.0 from https://example.test/repo"
  {
    var url := "https://example.test/repo";
    var a := Artifact("G1", "A1", "1.0", "jar", "compile", Some(Repository(Some(url))));
    DefaultArtifactLine(a);
    assert RepositoryUrl(a).value == url;
    assert "G1" + ":" + "A1" + ":" + "1.0" == "G1:A1:1.0";
    assert "G1:A1:1.0" + " from " == "G1:A1:1.0 from ";
    var lhs, rhs := "G1:A1:1.0 from " + url, "G1:A1:1.0 from https://example.test/repo";
    assert |lhs| == |rhs|;
    assert forall i :: 0 <= i < |lhs| ==> lhs[i] == rhs[i];
  }
}

=== FILE: print_modules.dfy ===
/**
  The `print-modules` goal: walk the module tree from the root project,
  collect the leaf modules into a set ordered by (groupId, artifactId) and
  render one line per module.
 */
module PrintModules {
  import opened Wrappers
  import opened Order
  import opened KeyedSet
  import opened LineFormat
  import opened Mojo

  /**
    A project descriptor as read from a pom: groupId and version may be
    omitted; `modules` holds one slot per declared submodule, in declared order.
   */
  datatype Desc = Desc(
    groupId: Option<string>,
    artifactId: string,
    version: Option<string>,
    packaging: string,
    modules: seq<Slot>)

  /**
    What lies at a declared submodule's `pom.xml`: nothing readable, a file
    the pom reader rejects, or a descriptor.
   */
  datatype Slot = Missing | Malformed | Present(desc: Desc)

  /** A resolved module record: groupId and version already inherited. */
  datatype Module = Module(groupId: string, artifactId: string, version: string, packaging: string)

  /** The only error of the walk: a readable pom that does not parse. */
  datatype Error = MalformedPom

  /** Number of slots in a forest of declared submodules, counted through every level. */
  function SlotsSize(slots: seq<Slot>): nat
    decreases slots
  {
    if |slots| == 0 then 0 else SlotSize(slots[0]) + SlotsSize(slots[1..])
  }

  function SlotSize(s: Slot): nat
    decreases s
  {
    match s
    case Present(d) => 1 + SlotsSize(d.modules)
    case _ => 1
  }

  /** Both the remaining siblings and a present head's submodules are smaller forests. */
  lemma SlotsShrink(slots: seq<Slot>)
    requires |slots| > 0
    ensures SlotsSize(slots[1..]) < SlotsSize(slots)
    ensures slots[0].Present? ==> SlotsSize(slots[0].desc.modules) < SlotsSize(slots)
  {
  }

  function ModuleKey(m: Module): Key {
    Key(m.groupId, m.artifactId)
  }

  /** The root's record; the root must declare groupId and version itself. */
  function CreateParent(root: Desc): (r: Module)
    requires root.groupId.Some? && root.version.Some?
    ensures Some(r.groupId) == root.groupId && Some(r.version) == root.version
    ensures r.artifactId == root.artifactId && r.packaging == root.packaging
  {
    Module(root.groupId.value, root.artifactId, root.version.value, root.packaging)
  }

  /** A child's record: own groupId/version if declared, else the parent's resolved ones. */
  function CreateChild(parent: Module, d: Desc): (r: Module)
    ensures d.groupId.Some? ==> r.groupId == d.groupId.value
    ensures d.groupId.None? ==> r.groupId == parent.groupId
    ensures d.version.Some? ==> r.version == d.version.value
    ensures d.version.None? ==> r.version == parent.version
    ensures r.artifactId == d.artifactId && r.packaging == d.packaging
  {
    Module(OrElse(d.groupId, parent.groupId), d.artifactId, OrElse(d.version, parent.version), d.packaging)
  }

  /**
    `handleModules` as written: for each declared submodule in order, stop
    quietly at an unreadable pom, abort at a malformed one, add a leaf to the
    set, and descend into a module that declares submodules of its own.
   */
  function Walk(out: seq<Module>, parent: Module, slots: seq<Slot>): (r: Result<seq<Module>, Error>)
    requires Sorted(out, ModuleKey)
    ensures r.Success? ==> Sorted(r.value, ModuleKey)
    ensures r.Success? ==> Keys(out, ModuleKey) <= Keys(r.value, ModuleKey)
    decreases SlotsSize(slots)
  {
    if |slots| == 0 then Success(out)
    else
      SlotsShrink(slots);
      match slots[0]
      case Missing => Success(out)
      case Malformed => Failure(MalformedPom)
      case Present(d) =>
        var child := CreateChild(parent, d);
        if |d.modules| == 0 then
          Walk(Insert(out, child, ModuleKey), parent, slots[1..])
        else
          match Walk(out, child, d.modules)
          case Failure(e) => Failure(e)
          case Success(out') => Walk(out', parent, slots[1..])
  }

  /**
    The leaves the walk reaches, in depth-first declared order, before any
    set is involved; a failure anywhere in the reached part is a failure.
   */
  function Leaves(parent: Module, slots: seq<Slot>): Result<seq<Module>, Error>
    decreases SlotsSize(slots)
  {
    if |slots| == 0 then Success([])
    else
      SlotsShrink(slots);
      match slots[0]
      case Missing => Success([])
      case Malformed => Failure(MalformedPom)
      case Present(d) =>
        var child := CreateChild(parent, d);
        var here := if |d.modules| == 0 then Success([child]) else Leaves(child, d.modules);
        match here
        case Failure(e) => Failure(e)
        case Success(h) =>
          match Leaves(parent, slots[1..])
          case Failure(e) => Failure(e)
          case Success(t) => Success(h + t)
  }

  /**
    Threading the set through the walk is the same as collecting the leaves
    first and adding them to the set in that order afterwards.
   */
  lemma {:induction false} WalkIsInsertAll(out: seq<Module>, parent: Module, slots: seq<Slot>)
    requires Sorted(out, ModuleKey)
    ensures Walk(out, parent, slots).Failure? <==> Leaves(parent, slots).Failure?
    ensures Leaves(parent, slots).Success? ==>
      Walk(out, parent, slots) == Success(InsertAll(out, Leaves(parent, slots).value, ModuleKey))
    decreases SlotsSize(slots)
  {
    if |slots| > 0 {
      SlotsShrink(slots);
      var rest := slots[1..];
      match slots[0]
      case Missing =>
      case Malformed =>
      case Present(d) =>
        var child := CreateChild(parent, d);
        if |d.modules| == 0 {
          var out1 := Insert(out, child, ModuleKey);
          WalkIsInsertAll(out1, parent, rest);
          if Leaves(parent, rest).Success? {
            var t := Leaves(parent, rest).value;
            assert ([child] + t)[0] == child && ([child] + t)[1..] == t;
          }
        } else {
          WalkIsInsertAll(out, child, d.modules);
          if Leaves(child, d.modules).Success? {
            var h := Leaves(child, d.modules).value;
            var out1 := InsertAll(out, h, ModuleKey);
            WalkIsInsertAll(out1, parent, rest);
            if Leaves(parent, rest).Success? {
              InsertAllAppend(out, h, Leaves(parent, rest).value, ModuleKey);
            }
          }
        }
    }
  }

  /** `m` is the record of a zero-submodule node somewhere below `parent` in the declared tree. */
  ghost predicate DeclaredLeaf(m: Module, parent: Module, slots: seq<Slot>)
    decreases SlotsSize(slots)
  {
    && |slots| > 0
    && (SlotsShrink(slots);
        || (&& slots[0].Present?
            && var d := slots[0].desc;
               var child := CreateChild(parent, d);
               if |d.modules| == 0 then m == child else DeclaredLeaf(m, child, d.modules))
        || DeclaredLeaf(m, parent, slots[1..]))
  }

  /** Every pom in the declared tree is present and parses. */
  ghost predicate Complete(slots: seq<Slot>)
    decreases SlotsSize(slots)
  {
    if |slots| == 0 then true
    else
      SlotsShrink(slots);
      && slots[0].Present?
      && Complete(slots[0].desc.modules)
      && Complete(slots[1..])
  }

  /** Only leaves are collected: modules with submodules, and the root, never appear. */
  lemma {:induction false} LeavesAreDeclaredLeaves(parent: Module, slots: seq<Slot>)
    ensures Leaves(parent, slots).Success? ==>
      forall m :: m in Leaves(parent, slots).value ==> DeclaredLeaf(m, parent, slots)
    decreases SlotsSize(slots)
  {
    if |slots| > 0 && slots[0].Present? && Leaves(parent, slots).Success? {
      SlotsShrink(slots);
      var d := slots[0].desc;
      var child := CreateChild(parent, d);
      LeavesAreDeclaredLeaves(parent, slots[1..]);
      if |d.modules| != 0 {
        LeavesAreDeclaredLeaves(child, d.modules);
      }
    }
  }

  /** When every pom is present and valid, the walk succeeds and collects every leaf. */
  lemma {:induction false} CompleteTreeCollectsAllLeaves(parent: Module, slots: seq<Slot>)
    requires Complete(slots)
    ensures Leaves(parent, slots).Success?
    ensures forall m :: DeclaredLeaf(m, parent, slots) ==> m in Leaves(parent, slots).value
    decreases SlotsSize(slots)
  {
    if |slots| > 0 {
      SlotsShrink(slots);
      var d := slots[0].desc;
      var child := CreateChild(parent, d);
      CompleteTreeCollectsAllLeaves(parent, slots[1..]);
      if |d.modules| != 0 {
        CompleteTreeCollectsAllLeaves(child, d.modules);
      }
    }
  }

  /**
    Quiet stop: an unreadable pom ends its sibling list; nothing after it is
    looked at, so even a malformed sibling later on causes no failure.
   */
  lemma {:induction false} QuietStop(out: seq<Module>, parent: Module, pre: seq<Slot>, post: seq<Slot>)
    requires Sorted(out, ModuleKey)
    ensures Walk(out, parent, pre + [Missing] + post) == Walk(out, parent, pre)
    decreases |pre|
  {
    var all := pre + [Missing] + post;
    if |pre| == 0 {
      assert all[0] == Missing;
    } else {
      assert all[0] == pre[0] && all[1..] == pre[1..] + [Missing] + post;
      SlotsShrink(all);
      SlotsShrink(pre);
      match pre[0]
      case Missing =>
      case Malformed =>
      case Present(d) =>
        var child := CreateChild(parent, d);
        if |d.modules| == 0 {
          QuietStop(Insert(out, child, ModuleKey), parent, pre[1..], post);
        } else if Walk(out, child, d.modules).Success? {
          QuietStop(Walk(out, child, d.modules).value, parent, pre[1..], post);
        }
    }
  }

  /**
    An unreadable pom inside a child's module list ends only that list: the
    enclosing list goes on with its next sibling from the set collected so far.
   */
  lemma NestedQuietStop(out: seq<Module>, parent: Module, d: Desc, pre: seq<Slot>, post: seq<Slot>, rest: seq<Slot>)
    requires Sorted(out, ModuleKey)
    requires d.modules == pre + [Missing] + post
    ensures var child := CreateChild(parent, d);
      && (Walk(out, child, pre).Failure? ==> Walk(out, parent, [Present(d)] + rest).Failure?)
      && (Walk(out, child, pre).Success? ==>
            Walk(out, parent, [Present(d)] + rest) == Walk(Walk(out, child, pre).value, parent, rest))
  {
    var child := CreateChild(parent, d);
    QuietStop(out, child, pre, post);
    var all := [Present(d)] + rest;
    assert all[0] == Present(d) && all[1..] == rest;
  }

  /** With no unreadable pom among `pre`, the walk over `pre + post` carries on into `post`. */
  lemma {:induction false} WalkAppend(out: seq<Module>, parent: Module, pre: seq<Slot>, post: seq<Slot>)
    requires Sorted(out, ModuleKey)
    requires Missing !in pre
    ensures Walk(out, parent, pre).Failure? ==> Walk(out, parent, pre + post).Failure?
    ensures Walk(out, parent, pre).Success? ==>
      Walk(out, parent, pre + post) == Walk(Walk(out, parent, pre).value, parent, post)
    decreases |pre|
  {
    var all := pre + post;
    if |pre| == 0 {
      assert all == post;
    } else {
      assert all[0] == pre[0] && all[1..] == pre[1..] + post;
      assert pre[0] in pre;
      SlotsShrink(all);
      SlotsShrink(pre);
      match pre[0]
      case Malformed =>
      case Present(d) =>
        var child := CreateChild(parent, d);
        assert forall s :: s in pre[1..] ==> s in pre;
        if |d.modules| == 0 {
          WalkAppend(Insert(out, child, ModuleKey), parent, pre[1..], post);
        } else if Walk(out, child, d.modules).Success? {
          WalkAppend(Walk(out, child, d.modules).value, parent, pre[1..], post);
        }
    }
  }

  /**
    A readable but malformed pom reached by the walk fails the whole run,
    whatever follows it.
   */
  lemma MalformedAborts(out: seq<Module>, parent: Module, pre: seq<Slot>, post: seq<Slot>)
    requires Sorted(out, ModuleKey)
    requires Missing !in pre && Walk(out, parent, pre).Success?
    ensures Walk(out, parent, pre + [Malformed] + post).Failure?
  {
    WalkAppend(out, parent, pre, [Malformed] + post);
    assert pre + [Malformed] + post == pre + ([Malformed] + post);
    var o := Walk(out, parent, pre).value;
    assert ([Malformed] + post)[0] == Malformed;
  }

  /** The record reached by creating a child for each descriptor of `path`, from `top` downwards. */
  function ResolvePath(top: Module, path: seq<Desc>): Module
    decreases |path|
  {
    if |path| == 0 then top else ResolvePath(CreateChild(top, path[0]), path[1..])
  }

  /** The value declared by the nearest (last) declaring entry of `own`, or `inherited` when none declares one. */
  function Nearest(inherited: string, own: seq<Option<string>>): string
    decreases |own|
  {
    if |own| == 0 then inherited
    else if own[|own| - 1].Some? then own[|own| - 1].value
    else Nearest(inherited, own[..|own| - 1])
  }

  lemma {:induction false} ResolvePathSnoc(top: Module, path: seq<Desc>, d: Desc)
    ensures ResolvePath(top, path + [d]) == CreateChild(ResolvePath(top, path), d)
    decreases |path|
  {
    if |path| == 0 {
      assert ([d])[1..] == [];
    } else {
      assert (path + [d])[0] == path[0] && (path + [d])[1..] == path[1..] + [d];
      ResolvePathSnoc(CreateChild(top, path[0]), path[1..], d);
    }
  }

  /**
    Inheritance through any number of generations: groupId and version come
    from the nearest descriptor on the path that declares them (the top
    record's value when none does); artifactId and packaging are the last
    descriptor's own.
   */
  lemma {:induction false} NearestAncestorWins(top: Module, path: seq<Desc>)
    ensures var m := ResolvePath(top, path);
      && m.groupId == Nearest(top.groupId, seq(|path|, i requires 0 <= i < |path| => path[i].groupId))
      && m.version == Nearest(top.version, seq(|path|, i requires 0 <= i < |path| => path[i].version))
      && (|path| > 0 ==> m.artifactId == path[|path| - 1].artifactId && m.packaging == path[|path| - 1].packaging)
    decreases |path|
  {
    if |path| > 0 {
      var init, d := path[..|path| - 1], path[|path| - 1];
      assert path == init + [d];
      ResolvePathSnoc(top, init, d);
      NearestAncestorWins(top, init);
      var gs := seq(|path|, i requires 0 <= i < |path| => path[i].groupId);
      var vs := seq(|path|, i requires 0 <= i < |path| => path[i].version);
      assert gs[..|gs| - 1] == seq(|init|, i requires 0 <= i < |init| => init[i].groupId);
      assert vs[..|vs| - 1] == seq(|init|, i requires 0 <= i < |init| => init[i].version);
    }
  }

  /**
    `path` runs down the declared tree from `slots` to a leaf: its first
    descriptor is declared present in `slots`, each later one is declared
    present by the one before, and the last declares no submodules.
   */
  ghost predicate LeafChain(slots: seq<Slot>, path: seq<Desc>)
    decreases |path|
  {
    && |path| > 0
    && Present(path[0]) in slots
    && if |path| == 1 then |path[0].modules| == 0
       else |path[0].modules| > 0 && LeafChain(path[0].modules, path[1..])
  }

  /**
    Every declared leaf is the record that `createChild` builds generation by
    generation along the chain of poms leading to it, so the walk's records
    inherit exactly as `NearestAncestorWins` describes.
   */
  lemma {:induction false} LeafOnChain(m: Module, parent: Module, slots: seq<Slot>)
    requires DeclaredLeaf(m, parent, slots)
    ensures exists path :: LeafChain(slots, path) && m == ResolvePath(parent, path)
    decreases SlotsSize(slots)
  {
    SlotsShrink(slots);
    var d := if slots[0].Present? then slots[0].desc else Desc(None, "", None, "", []);
    if slots[0].Present? && |d.modules| == 0 && m == CreateChild(parent, d) {
      var path := [d];
      assert path[1..] == [];
      assert LeafChain(slots, path) && m == ResolvePath(parent, path);
    } else if slots[0].Present? && |d.modules| > 0 && DeclaredLeaf(m, CreateChild(parent, d), d.modules) {
      LeafOnChain(m, CreateChild(parent, d), d.modules);
      var sub :| LeafChain(d.modules, sub) && m == ResolvePath(CreateChild(parent, d), sub);
      var path := [d] + sub;
      assert path[0] == d && path[1..] == sub;
      assert LeafChain(slots, path) && m == ResolvePath(parent, path);
    } else {
      LeafOnChain(m, parent, slots[1..]);
      var path :| LeafChain(slots[1..], path) && m == ResolvePath(parent, path);
      assert Present(path[0]) in slots;
      assert LeafChain(slots, path);
    }
  }

  /** `execute` up to the set: walk from the root's record over the root's declared modules. */
  function Collect(root: Desc): (r: Result<seq<Module>, Error>)
    requires root.groupId.Some? && root.version.Some?
    ensures r.Success? ==> Sorted(r.value, ModuleKey)
    ensures |root.modules| == 0 ==> r == Success([])
  {
    Walk([], CreateParent(root), root.modules)
  }

  /**
    The collected set is strictly ascending by (groupId, artifactId) and holds,
    for each key, the first leaf with that key in depth-first declared order.
   */
  lemma CollectFirstLeafWins(root: Desc)
    requires root.groupId.Some? && root.version.Some?
    ensures Collect(root).Failure? <==> Leaves(CreateParent(root), root.modules).Failure?
    ensures Collect(root).Success? ==>
      && Sorted(Collect(root).value, ModuleKey)
      && forall m :: m in Collect(root).value <==>
           FirstOfKey(Leaves(CreateParent(root), root.modules).value, m, ModuleKey)
  {
    WalkIsInsertAll([], CreateParent(root), root.modules);
    if Collect(root).Success? {
      FromSeqFirstWins(Leaves(CreateParent(root), root.modules).value, ModuleKey);
    }
  }

  /**
    Every record the goal collects is a leaf reached along a chain of
    declared poms from the root, with the fields `createChild` gives it
    generation by generation from the root's record.
   */
  lemma CollectedAlongChain(root: Desc, m: Module)
    requires root.groupId.Some? && root.version.Some?
    requires Collect(root).Success? && m in Collect(root).value
    ensures exists path :: LeafChain(root.modules, path) && m == ResolvePath(CreateParent(root), path)
  {
    var top := CreateParent(root);
    CollectFirstLeafWins(root);
    LeavesAreDeclaredLeaves(top, root.modules);
    var leaves := Leaves(top, root.modules).value;
    var i :| 0 <= i < |leaves| && leaves[i] == m && NoEarlierKey(leaves, i, ModuleKey(m), ModuleKey);
    LeafOnChain(m, top, root.modules);
  }

  /** One output line: groupId, artifactId, version and packaging, each if its toggle is on. */
  function ModuleLine(m: Module, printPackaging: bool, t: Toggles): (r: string)
    ensures r == "" <==>
      && (!t.printGroupId || m.groupId == "")
      && (!t.printArtifactId || m.artifactId == "")
      && (!t.printVersion || m.version == "")
      && (!printPackaging || m.packaging == "")
  {
    FieldLineEmptyIff([
      Field(t.printGroupId, m.groupId),
      Field(t.printArtifactId, m.artifactId),
      Field(t.printVersion, m.version),
      Field(printPackaging, m.packaging)]);
    FieldLine([
      Field(t.printGroupId, m.groupId),
      Field(t.printArtifactId, m.artifactId),
      Field(t.printVersion, m.version),
      Field(printPackaging, m.packaging)])
  }

  /** The enabled fields joined by ':' (empty leading fields leave no separator); "" with every toggle off. */
  lemma ModuleLineFields(m: Module, printPackaging: bool, t: Toggles)
    ensures ModuleLine(m, printPackaging, t) == Join(DropLeadingEmpty(Enabled([
      Field(t.printGroupId, m.groupId),
      Field(t.printArtifactId, m.artifactId),
      Field(t.printVersion, m.version),
      Field(printPackaging, m.packaging)])))
    ensures !t.printGroupId && !t.printArtifactId && !t.printVersion && !printPackaging ==>
      ModuleLine(m, printPackaging, t) == ""
  {
    FieldLineIsJoin([
      Field(t.printGroupId, m.groupId),
      Field(t.printArtifactId, m.artifactId),
      Field(t.printVersion, m.version),
      Field(printPackaging, m.packaging)]);
    FieldLineEmptyIff([
      Field(t.printGroupId, m.groupId),
      Field(t.printArtifactId, m.artifactId),
      Field(t.printVersion, m.version),
      Field(printPackaging, m.packaging)]);
  }

  /** The `print-modules` goal: the lines to write, one per collected module in set order, or the failure. */
  function Execute(root: Desc, printPackaging: bool, t: Toggles): (r: Result<seq<string>, Error>)
    requires root.groupId.Some? && root.version.Some?
    ensures r.Failure? <==> Leaves(CreateParent(root), root.modules).Failure?
    ensures r.Success? <==> Collect(root).Success?
    ensures r.Success? ==> |r.value| == |Collect(root).value|
    ensures r.Success? ==> forall i :: 0 <= i < |r.value| ==>
      r.value[i] == ModuleLine(Collect(root).value[i], printPackaging, t)
  {
    CollectFirstLeafWins(root);
    match Collect(root)
    case Failure(e) => Failure(e)
    case Success(modules) =>
      Success(seq(|modules|, i requires 0 <= i < |modules| => ModuleLine(modules[i], printPackaging, t)))
  }

  /** Root G1:A1:1.0 (a pom) declaring two leaves: m1 = G1:A1-m1:1.0, and m2 = A1-m2 declaring neither groupId nor version. */
  const TwoLeafRoot := Desc(Some("G1"), "A1", Some("1.0"), "pom", [
    Present(Desc(Some("G1"), "A1-m1", Some("1.0"), "jar", [])),
    Present(Desc(None, "A1-m2", None, "jar", []))])

  /** m2 inherits G1 and 1.0 from the root; the set orders m1 before m2. */
  lemma TwoLeafCollect()
    ensures Collect(TwoLeafRoot) == Success([
      Module("G1", "A1-m1", "1.0", "jar"),
      Module("G1", "A1-m2", "1.0", "jar")])
  {
    var root := TwoLeafRoot;
    var top := CreateParent(root);
    var r1 := Module("G1", "A1-m1", "1.0", "jar");
    var r2 := Module("G1", "A1-m2", "1.0", "jar");
    assert CreateChild(top, root.modules[0].desc) == r1;
    assert CreateChild(top, root.modules[1].desc) == r2;
    assert StrLess("A1-m1", "A1-m2");
    var s1 := Insert([], r1, ModuleKey);
    assert s1 == [r1];
    assert Insert(s1, r2, ModuleKey) == [r1, r2];
    assert root.modules[1..] == [root.modules[1]];
    assert Walk([r1, r2], top, []) == Success([r1, r2]);
    assert Walk(s1, top, root.modules[1..]) == Success([r1, r2]);
  }

  /** With the default toggles the goal prints exactly `G1:A1-m1:1.0` then `G1:A1-m2:1.0`. */
  lemma TwoLeafScenario()
    ensures Execute(TwoLeafRoot, false, Defaults) == Success(["G1:A1-m1:1.0", "G1:A1-m2:1.0"])
  {
    TwoLeafCollect();
    TwoLeafLines();
    var r := Execute(TwoLeafRoot, false, Defaults);
    assert r.Success? && |r.value| == 2;
    assert r.value == ["G1:A1-m1:1.0", "G1:A1-m2:1.0"];
  }

  lemma TwoLeafLines()
    ensures ModuleLine(Module("G1", "A1-m1", "1.0", "jar"), false, Defaults) == "G1:A1-m1:1.0"
    ensures ModuleLine(Module("G1", "A1-m2", "1.0", "jar"), false, Defaults) == "G1:A1-m2:1.0"
  {
    G1Line("A1-m1");
    G1Line("A1-m2");
    var l1, l2 := "G1:" + "A1-m1" + ":1.0", "G1:" + "A1-m2" + ":1.0";
    assert |l1| == |"G1:A1-m1:1.0"| && forall i :: 0 <= i < |l1| ==> l1[i] == "G1:A1-m1:1.0"[i];
    assert |l2| == |"G1:A1-m2:1.0"| && forall i :: 0 <= i < |l2| ==> l2[i] == "G1:A1-m2:1.0"[i];
  }

  /** The default line of a G1 jar at version 1.0. */
  lemma G1Line(a: string)
    ensures ModuleLine(Module("G1", a, "1.0", "jar"), false, Defaults) == "G1:" + a + ":1.0"
  {
    DefaultModuleLine(Module("G1", a, "1.0", "jar"));
  }

  /** With the default toggles a module with a non-empty groupId prints as groupId:artifactId:version. */
  lemma DefaultModuleLine(m: Module)
    requires |m.groupId| > 0
    ensures ModuleLine(m, false, Defaults) == m.groupId + ":" + m.artifactId + ":" + m.version
  {
    CoordinatesLine(m.groupId, m.artifactId, m.version, m.packaging);
  }

  /**
    Root G:A:1 declares b and d; b declares the leaf e, then c whose pom is
    unreadable, then f whose pom is malformed; d is a leaf.
   */
  const QuietStopRoot := Desc(Some("G"), "A", Some("1"), "pom", [
    Present(Desc(None, "A-b", None, "pom", [
      Present(Desc(None, "A-e", None, "jar", [])),
      Missing,
      Malformed])),
    Present(Desc(None, "A-d", None, "jar", []))])

  /**
    The unreadable c ends b's list without error: e (before it) and d (the
    root's next module) are kept, and the malformed f is never read.
   */
  lemma QuietStopScenario()
    ensures Collect(QuietStopRoot) == Success([
      Module("G", "A-d", "1", "jar"),
      Module("G", "A-e", "1", "jar")])
  {
    var root := QuietStopRoot;
    var top := CreateParent(root);
    var b := root.modules[0].desc;
    var bm := CreateChild(top, b);
    var e := Module("G", "A-e", "1", "jar");
    var d := Module("G", "A-d", "1", "jar");
    assert CreateChild(bm, b.modules[0].desc) == e;
    assert CreateChild(top, root.modules[1].desc) == d;
    assert b.modules[1..] == [Missing, Malformed];
    assert Insert([], e, ModuleKey) == [e];
    assert Walk([e], bm, b.modules[1..]) == Success([e]);
    assert Walk([], bm, b.modules) == Success([e]);
    assert StrLess("A-d", "A-e");
    assert Insert([e], d, ModuleKey) == [d, e];
    assert root.modules[1..] == [root.modules[1]];
    assert Walk([d, e], top, []) == Success([d, e]);
    assert Walk([e], top, root.modules[1..]) == Success([d, e]);
  }
}

=== FILE: wrappers.dfy ===
/** The model's stand-ins for Java's nullable references and thrown exceptions. */
module Wrappers {

  /** A reference that may be null: `None` is null, `Some(v)` holds `v`. */
  datatype Option<T> = None | Some(value: T)

  /** The `x != null ? x : fallback` idiom. */
  function OrElse<T>(x: Option<T>, fallback: T): T {
    if x.Some? then x.value else fallback
  }

  /** A call that either returns `value` or throws `error`. */
  datatype Result<T, E> = Success(value: T) | Failure(error: E)
}
